=== FILE: README.md ===
# Bendulum beat-timing and calibration, modelled in Dafny

A Bendulum drives a springy reed or pendulum whose magnet swings over a sense
coil. On every passage the library's `beat()` timestamps the passage, kicks the
magnet, and returns its best estimate of one beat's duration in microseconds
(`uspb`). The object moves through five run modes:

- SETTLING lets the motion settle for `tgtSettle` cycles (one cycle is two beats).
- SCALING spends `tgtScale` cycles raising `peakScale` while coil peaks are too high.
- CALIBRATING spends `tgtSmoothing` cycles building running averages of tick and tock durations.
- CALFINISH lasts one beat and announces that calibration is done.
- RUNNING reports the calibrated duration indefinitely.

Every measured interval is corrected by a clock `bias` in tenths of a second per day.

The model is the pure integer state machine behind `beat()`. It consists of:

- a `State` record holding the object's instance variables;
- a step function `Beat(s, Passage(t, peak))`, where `t` is the `micros()` reading at the passage and `peak` is the last scaled coil reading before the induced voltage fell;
- `SetRunMode` with its reset table;
- `Cycle`, and the getters and setters that have logic of their own.

Arithmetic follows the AVR C dialect the library is written for:

- `int` is 16 bits, `long` is 32 bits, `unsigned long` is 32 bits.
- Overflow wraps around in two's complement (`CInt.Wrap16`, `CInt.Wrap32`).
- `unsigned long` subtraction is taken modulo 2^32 (`CInt.USub32`).
- `/` truncates toward zero (`CInt.CDiv`). Dafny's own `/` is Euclidean.

Files:

- `cint.dfy` (module `CInt`): fixed-width integers and C division.
- `modes.dfy` (module `Modes`): the run modes and their byte codes.
- `bendulum.dfy` (module `Bendulum`): the state, the constructor, `beat()`, `cycle()`, `setRunMode()` and the setters.
- `beat_steps.dfy` (module `BeatSteps`): what one beat does in each mode, and the clock correction against exact arithmetic.
- `runs.dfy` (module `Runs`): runs of many beats. It covers how long SETTLING, SCALING and CALIBRATING last, what calibration converges to, and what RUNNING reports.

### Where the code differs from the library's own comments

The model follows the code in each case.

- The library's comment says a positive bias means the clock's "microseconds" are shorter than real ones (`Bendulum.cpp:54-55`), which calls for shortening a measured interval. The code adds the correction, so a positive bias lengthens it (`Bendulum.cpp:153`).
- The comment on the five-second check says an over-long beat is ignored (`Bendulum.cpp:154-155`). The code sets it to 0 instead, and that 0 becomes the beat duration; the previous estimate is not kept (`Bendulum.cpp:154-156`).
- The mode table says CALIBRATING measures "as in the SETTLING mode" (`Bendulum.cpp:27-29`). CALIBRATING has no five-second check (`Bendulum.cpp:189-195`).
- The prose names a `getTgtScale()` (`Bendulum.cpp:37`). There is no getter or setter for `tgtScale`, so it stays 128.
- The header comment on `isTick` says "true if the last beat was a tick" (`Bendulum.h:123`). The field it returns means "awaiting a tick" (`Bendulum.h:97`).
- The correction is commented as "rounded" (`Bendulum.cpp:153`). It adds half a day before dividing, and C division truncates toward zero. So it is round-to-nearest only when `bias*d + 432000` is not negative. Below that, the result is one microsecond higher than the nearest integer: a bias of -10 on a one-second beat gives 999,989 instead of 999,988 (`BeatSteps.CorrectionRounding`, `BeatSteps.CorrectionExamples`).
- The comment on the first-call test says "if first time through" (`Bendulum.cpp:146`). "No time base yet" is encoded as `lastTime == 0`, so a passage whose `micros()` reading is exactly 0 erases the time base. The next beat is then treated as a first call: it returns 0 and measures nothing (`BeatSteps.ZeroStampRestarts`).
- The prose says each mode lasts its target number of cycles (`Bendulum.cpp:33-39`). A target below 1 still gives one cycle, because the first tock already takes the counter past it (`Bendulum.cpp:161`, `Bendulum.cpp:196-197`; `Runs.SettleTargetBelowOne`, `Runs.SettlingLasts`, `Runs.CalibrationCompletes`).

### Other behaviour of the code worth knowing

- `incrBeatDuration` applies its correction once, in one step, and copies the result into both averages (`Bendulum.cpp:306-309`).
- `peakScale` is not frozen outside SCALING. The SETTLING beat that enters SCALING resets it to 10 through `setRunMode(SCALING)`.
- The product `bias * d` is computed in a `long` and can overflow. With bias +2500 on a one-second beat it wraps, and the beat comes out at 997,923 microseconds instead of the exact 1,002,894 (`Bendulum.cpp:153`, `BeatSteps.LargeBiasWraps`).
- The interval is an `unsigned long` difference stored in a `long`. A `micros()` difference between 2^31 and 2^32 - 1 microseconds (about 36 to 72 minutes) turns negative; a longer gap wraps around to its remainder modulo 2^32 and is measured as that. The five-second check only catches large positive values, so SETTLING and SCALING report a negative beat duration (`Bendulum.cpp:152-156`, `BeatSteps.LongGapNegative`).

## Model

| member | source | states |
|---|---|---|
| `CInt.Wrap32` | Bendulum.cpp:153 | a `long` result is the unique 32-bit value congruent to the exact one, and equals it when it fits |
| `CInt.Wrap16` | Bendulum.cpp:262 | an `int` result is the 16-bit value congruent to the exact one, and equals it when it fits |
| `CInt.Inc16` | Bendulum.cpp:161 | `++` on a 16-bit counter adds one below 32767 and wraps to -32768 at it |
| `CInt.USub32` | Bendulum.cpp:152 | `topTime - lastTime` is the forward distance modulo 2^32: adding it back to `lastTime` gives `topTime`, and it is the plain difference when no wrap occurred |
| `CInt.CDiv` | Bendulum.cpp:191 | C division: the remainder is smaller than the divisor and has the sign of the dividend |
| `CInt.CDivUnique` | Bendulum.cpp:191 | for a positive divisor, those remainder conditions determine the quotient uniquely |
| `CInt.CDivVersusEuclid` | Bendulum.cpp:153 | for a positive divisor, C division equals Euclidean division on a non-negative dividend, and is one larger on a negative dividend that is not a multiple |
| `CInt.CDivNegate` | Bendulum.cpp:195 | truncating division is odd in its dividend |
| `CInt.CDivShrinks` | Bendulum.cpp:191 | dividing by a positive smoothing interval never enlarges the difference and keeps its sign |
| `Modes.Code` | Bendulum.h:78-82 | mode codes are 0..4 |
| `Modes.FromCode` | Bendulum.cpp:316-339 | a byte names a mode exactly when it is at most 4 |
| `Modes.CodeRoundTrip` | Bendulum.h:78-82 | codes and modes correspond one to one |
| `Modes.Next` | Bendulum.h:33-43 | the lifecycle order SETTLING, SCALING, CALIBRATING, CALFINISH, RUNNING; RUNNING is final |
| `Bendulum.Construct` | Bendulum.cpp:88-101 | a new object is in SETTLING with no time base, awaiting a tick, already in the state a SETTLING reset leaves, with targets 32/128/2048, bias 0 and peak scale 10 |
| `Bendulum.AddCorrection` | Bendulum.cpp:153 | without overflow, the correction equals `x + CDiv(k*x + 432000, 864000)` in exact arithmetic |
| `Bendulum.Measured` | Bendulum.cpp:152-153 | for a raw interval of at most 2,000,000,000 microseconds with bias times interval at most 2,000,000,000 in size, the corrected interval is the exact formula |
| `Bendulum.Smooth` | Bendulum.cpp:191 | for a non-negative average and sample and a window of at least 1, a running-average step lands between the old average and the sample; equals the sample when the window is 1, and keeps an average equal to the sample |
| `Bendulum.Mean` | Bendulum.cpp:204 | when the sum of the two averages fits in a `long`, whatever their signs, their mean lies between them and equals them when they are equal |
| `Bendulum.Enter` | Bendulum.cpp:317-338 | entering each mode resets exactly the state the reset table names and nothing else |
| `Bendulum.SetRunMode` | Bendulum.cpp:316-339 | codes 0..4 enter the named mode; any other code changes nothing |
| `Bendulum.RunModeCode` | Bendulum.cpp:313-315 | `getRunMode()` returns the code of the current mode |
| `Bendulum.CycleCounterReading` | Bendulum.cpp:230-234 | -1 in RUNNING, the smoothing interval in CALIBRATING, the cycle counter otherwise |
| `Bendulum.Beat` | Bendulum.cpp:146-217 | bias and targets never change. The first call records the time and returns 0, changing nothing else. Later calls shift the time stamps and return the stored `uspb`. The mode stays put or advances one step in lifecycle order. Outside SETTLING and SCALING, the peak scale and cycle counter stay fixed |
| `Bendulum.CycleDefined` | Bendulum.cpp:188-196 | both beats of a cycle avoid dividing by a zero smoothing interval exactly when, in CALIBRATING, the first beat does not take the interval to 0: not already 0 before a first call, and not wrapped from -1 to 0 by a tock that stays in CALIBRATING |
| `Bendulum.Cycle` | Bendulum.cpp:220-222 | after a first call the sum is just the second beat; in RUNNING it is twice the beat duration, and only the time stamps move. In the other modes the sum is stated by `Runs.CycleIsTwoBeats` |
| `Bendulum.SetTgtSettle` | Bendulum.cpp:250-252 | sets the settle target and nothing else |
| `Bendulum.SetTgtSmoothing` | Bendulum.cpp:240-242 | sets the smoothing target and nothing else |
| `Bendulum.SetBias` | Bendulum.cpp:258-260 | sets the bias and nothing else |
| `Bendulum.IncrBias` | Bendulum.cpp:261-264 | adds to the bias in 16-bit arithmetic and returns the new bias, changing nothing else |
| `Bendulum.SetPeakScale` | Bendulum.cpp:270-272 | sets the peak scale and nothing else |
| `Bendulum.SetBeatDuration` | Bendulum.cpp:303-305 | the beat duration and both averages take the given value; nothing else changes |
| `Bendulum.IncrBeatDuration` | Bendulum.cpp:306-309 | one correction step, the exact formula when nothing overflows, copied into both averages; a zero increment keeps the beat duration, but both averages still take its value |
| `BeatSteps.CorrectionRounding` | Bendulum.cpp:153 | the correction is the nearest integer when the rounded numerator is not negative, and between a half and one and a half microseconds above exact otherwise |
| `BeatSteps.MeasuredPositive` | Bendulum.cpp:152-153 | without overflow, a corrected interval is 0 or positive exactly as the raw one is |
| `BeatSteps.MeasuredBounded` | Bendulum.cpp:153 | whenever nothing overflows, the correction moves an interval by at most 2315 microseconds either way |
| `BeatSteps.BiasDirection` | Bendulum.cpp:153 | without overflow, a positive bias never shortens an interval and a negative one never lengthens it |
| `BeatSteps.CorrectionExamples` | Bendulum.cpp:153 | one second with bias +10 becomes 1,000,012 microseconds and with bias -10 becomes 999,989 |
| `BeatSteps.LargeBiasWraps` | Bendulum.cpp:153 | with bias +2500 on one second the product overflows its `long`, and the beat is 997,923 microseconds where the exact correction gives 1,002,894 |
| `BeatSteps.SettlingBeat` | Bendulum.cpp:151-165 | the capped corrected interval becomes `uspb` and the tick or tock period. Only a tock counts a cycle. SCALING is entered exactly when the incremented counter exceeds `tgtSettle`, with counter 1 and peak scale 10 |
| `BeatSteps.ScalingBeat` | Bendulum.cpp:166-183 | the peak scale rises by one exactly when the peak exceeds 1. The beat is measured as in SETTLING. CALIBRATING is entered exactly when the incremented counter exceeds `tgtScale`, with fresh averages |
| `BeatSteps.MeasuringBeatValue` | Bendulum.cpp:152-156 | without overflow the reported beat is the exact corrected interval, or 0 above five seconds, and lies in 0..5,000,000 |
| `BeatSteps.LongGapNegative` | Bendulum.cpp:152-156 | with no bias, a `micros()` difference between 2^31 and 2^32 - 1 microseconds makes SETTLING and SCALING report the difference minus 2^32, a negative beat duration |
| `BeatSteps.CalibratingBeat` | Bendulum.cpp:184-206 | a tock with no tick average is handled as a tick. A tick updates the tick average, and a tock updates the tock average and the smoothing interval. CALFINISH is entered exactly past `tgtSmoothing`. The reported beat is the tick average until a tock average exists, then the mean of both |
| `BeatSteps.CalFinishBeat` | Bendulum.cpp:207-209 | the beat after CALFINISH enters RUNNING and changes nothing but the mode, the tick flag and the time stamps |
| `BeatSteps.RunningBeat` | Bendulum.cpp:210-216 | a RUNNING beat changes only the tick flag and the time stamps, and returns the stored beat duration |
| `BeatSteps.ZeroStampRestarts` | Bendulum.cpp:146-149 | in every mode, after a passage stamped 0 the next beat is a first call: it returns 0 and only records its time |
| `BeatSteps.SetRunModeIdempotent` | Bendulum.cpp:316-339 | applying the same `setRunMode` twice is the same as once; an unknown code is ignored |
| `BeatSteps.CycleCounterAfterSetRunMode` | Bendulum.cpp:229-234 | after entering SETTLING, SCALING or CALIBRATING the counter reads 1, after RUNNING -1, and after CALFINISH the old cycle counter |
| `BeatSteps.IncrBiasUndo` | Bendulum.cpp:261-264 | `incrBias(-f)` undoes `incrBias(f)`, even across wrap-around, with `-f` taken in 16 bits: for f = -32768, whose negation is -32768 again, two such calls restore the bias |
| `Runs.SettlingRun` | Bendulum.cpp:157-163 | from counter c, SETTLING counts one cycle per tock and enters SCALING on beat 2*(T - c + 1), where T is `tgtSettle` or c if that is larger, or one beat earlier when it starts awaiting a tock; not before |
| `Runs.SettlingLasts` | Bendulum.cpp:318-321 | after `setRunMode(SETTLING)`, SETTLING lasts exactly T tocks, where T is `tgtSettle` or 1 if that is larger: 2*T beats from awaiting a tick, 2*T - 1 from awaiting a tock |
| `Runs.SettleTargetBelowOne` | Bendulum.cpp:157-163 | with a settle target of 0 or less, SETTLING still lasts one cycle: from a tick, the first beat stays in SETTLING and the second enters SCALING |
| `Runs.PowerOnSettles` | Bendulum.cpp:146-149 | from power-on, the first passage returns 0 and only sets the time base; the next 63 beats stay in SETTLING and the 64th enters SCALING |
| `Runs.ScalingRun` | Bendulum.cpp:166-183 | SCALING lasts until beat 2*(T - c + 1), where T is `tgtScale` or c if that is larger, one beat less when it starts awaiting a tock. The peak scale grows by exactly the number of high peaks. CALIBRATING is then entered with fresh averages |
| `Runs.ScalingLasts` | Bendulum.cpp:322-326 | after `setRunMode(SCALING)`, SCALING lasts exactly T tocks, where T is `tgtScale` or 1 if that is larger (2*T beats from awaiting a tick, one fewer from awaiting a tock), and ends with peak scale 10 plus the high peaks |
| `Runs.CalibratingWithin` | Bendulum.cpp:184-206 | when every corrected interval lies between `lo` and `hi`, both averages and the reported beat stay between them as soon as they exist, tick and tock alternate from the first beat, and the smoothing interval grows by one per cycle until beat 2*T enters CALFINISH, where T is `tgtSmoothing` or 1 if that is larger |
| `Runs.CalibrationCompletes` | Bendulum.cpp:196-209 | after `setRunMode(CALIBRATING)`, with every corrected interval between `lo` and `hi`, the object stays CALIBRATING for exactly 2*T beats, where T is `tgtSmoothing` or 1 if that is larger. It then enters CALFINISH with the beat duration and both averages between `lo` and `hi`, and on the next beat RUNNING, reporting that duration |
| `Runs.SteadyCalibration` | Bendulum.cpp:184-209 | for passages a fixed interval apart, calibration ends with the beat duration and both averages equal to the corrected interval, and RUNNING reports it |
| `Runs.RunningRun` | Bendulum.cpp:210-216 | any number of RUNNING beats, with any time stamps, leave everything but the tick flag and the time stamps unchanged; with a time base and no passage stamped 0, each beat flips the tick flag |
| `Runs.KnownResonator` | Bendulum.h:62-64 | after `setRunMode(RUNNING)` and `setBeatDuration(1000000)`, the first passage returns 0; the object stays RUNNING, and every later beat returns 1000000 except one right after a passage stamped 0, which returns 0 |
| `Runs.CycleIsTwoBeats` | Bendulum.cpp:220-222 | in every mode, `cycle()` leaves the object exactly as two consecutive beats do and returns the sum of their results, wrapped to a `long` |

## Left out

- The sensor polling loop, the settle delay, the kick pulse and the pin and `analogReference` setup (`Bendulum.cpp:82-86`, `Bendulum.cpp:126-143`). These are hardware I/O. Their only effect on the state machine is the passage time `t` and the peak reading `peak`, which are inputs of `Beat`.
- `getAvgBpm`, `getCurBpm` and `getDelta` (`Bendulum.cpp:280-297`). They are floating-point diagnostics that change no state.
- `getTgtSettle`, `getTgtSmoothing`, `getBias`, `getPeakScale`, `isTick` and `getBeatDuration`. Each is a plain read of a `State` field.
- A division by zero in the polling loop after `setPeakScale(0)`. The loop is not modelled.
- Signed overflow is undefined behaviour in C. The model gives it the two's-complement wrap-around that the AVR code generator produces.
- The constructor never assigns `uspb`, so its initial value is a parameter of `Construct`.
- Bendulum.Beat: requires `CanBeat`, meaning CALIBRATING's divisor `curSmoothing` is nonzero. The C code has no defined behaviour otherwise. Zero is reachable only after `curSmoothing` wraps past 32767, which needs `tgtSmoothing` = 32767.
- Runs.SettlingRun: covers runs with a counter and `tgtSettle` below 32767 (at 32767 the counter wraps and SETTLING never ends), no passage stamped 0 (a 0 time stamp makes the next beat a first one, see `BeatSteps.ZeroStampRestarts`), and an object that already has a time base. Without one, the first passage only records its time and every count comes one call later.
- Runs.ScalingRun: has the same restrictions as `SettlingRun`, the time base among them, and also needs the peak scale to stay below 32767.
- Runs.CalibratingWithin: covers corrected intervals between 1 and 1,073,741,823 microseconds, which keeps the sum of the two averages inside the `long` range. It also requires `tgtSmoothing` below 32767, no passage stamped 0, and an object that already has a time base. Without a time base the first passage only records its time (`Bendulum.Beat`), so the run is one call longer.
- Runs.CalibrationCompletes: has the same restrictions as `CalibratingWithin`, including the time base: after `setRunMode(CALIBRATING)` on a fresh object, CALFINISH comes one call later.
- Runs.SteadyCalibration: covers a raw interval of at most 1,000,000,000 microseconds with no overflow in the correction, plus the restrictions of `CalibrationCompletes`, the time base among them.
- Runs.SettlingLasts: has the restrictions of `SettlingRun`, the time base among them: without one, the first passage only records its time and SETTLING is one call longer.
- Runs.ScalingLasts: has the restrictions of `ScalingRun`, the time base among them.
- BeatSteps.MeasuringBeatValue: states the exact formula only when the raw interval is at most 2,000,000,000 microseconds and |bias * interval| is at most 2,000,000,000. `Beat` itself covers every input, with wrap-around.

=== FILE: beat_steps.dfy ===
/** What one call of `beat()` does in each run mode, and what the clock
    correction computes, stated against exact integer arithmetic. */
module BeatSteps {
  import opened CInt
  import opened Modes
  import opened Bendulum

  // ---------------------------------------------------------------------------
  // The clock correction

  /** The correction rounds the exact `k * x / 864000` to the nearest microsecond
      when `k * x + 432000` is not negative; below that, C's truncation toward zero
      rounds up instead, so the correction lies between a half and one and a half
      microseconds above the exact value. */
  lemma CorrectionRounding(k: Int32, x: Int32)
    requires SafeCorrection(k, x)
    ensures var c := AddCorrection(k, x) - x;
      && (k * x + HALF_DAY_TENTHS >= 0 ==>
            k * x - HALF_DAY_TENTHS < DAY_TENTHS * c <= k * x + HALF_DAY_TENTHS)
      && (k * x + HALF_DAY_TENTHS < 0 ==>
            k * x + HALF_DAY_TENTHS <= DAY_TENTHS * c < k * x + 3 * HALF_DAY_TENTHS)
  {
    var y := k * x + HALF_DAY_TENTHS;
    var c := CDiv(y, DAY_TENTHS);
    assert AddCorrection(k, x) - x == c;
    assert Abs(y - c * DAY_TENTHS) < DAY_TENTHS;
  }

  /** A corrected interval is positive exactly when the raw interval is: no bias a
      16-bit `int` can hold shrinks a beat to nothing. */
  lemma MeasuredPositive(bias: Int16, raw: UInt32)
    requires SafeCorrection(bias, raw)
    ensures raw == 0 ==> Measured(bias, raw) == 0
    ensures raw > 0 ==> Measured(bias, raw) > 0
  {
    var y := bias * raw + HALF_DAY_TENTHS;
    var c := CDiv(y, DAY_TENTHS);
    assert Measured(bias, raw) == raw + c;
    if raw > 0 && y < 0 {
      assert bias * raw >= -0x8000 * raw by { MulMonotone(-0x8000, bias, raw); }
      assert c * DAY_TENTHS >= y;
    }
  }

  /** The correction is added: a positive bias never shortens an interval and a
      negative bias never lengthens one. */
  lemma BiasDirection(bias: Int16, raw: UInt32)
    requires SafeCorrection(bias, raw)
    ensures bias >= 0 ==> Measured(bias, raw) >= raw
    ensures bias <= 0 ==> Measured(bias, raw) <= raw
  {
    var y := bias * raw + HALF_DAY_TENTHS;
    var c := CDiv(y, DAY_TENTHS);
    assert Measured(bias, raw) == raw + c;
    if raw > 0 {
      if bias >= 0 {
        MulMonotone(0, bias, raw);
      } else {
        MulMonotone(bias, 0, raw);
      }
    }
  }

  /** Within the range where nothing overflows, the correction moves an interval
      by at most 2315 microseconds either way. */
  lemma MeasuredBounded(bias: Int16, raw: UInt32)
    requires SafeCorrection(bias, raw)
    ensures raw - 2314 <= Measured(bias, raw) <= raw + 2315
  {
    var y := bias * raw + HALF_DAY_TENTHS;
    var c := CDiv(y, DAY_TENTHS);
    assert Measured(bias, raw) == raw + c;
    if y >= 0 {
      assert c * DAY_TENTHS <= y;
    } else {
      assert c * DAY_TENTHS >= y;
    }
  }

  /** The two worked cases of a one-second beat: a bias of +10 tenths of a second
      per day adds 12 microseconds; a bias of -10 takes off 11, where rounding
      -11.57 to the nearest integer would take off 12. */
  lemma CorrectionExamples()
    ensures Measured(10, 1_000_000) == 1_000_012
    ensures Measured(-10, 1_000_000) == 999_989
  {
    assert CDiv(10_432_000, DAY_TENTHS) == 12 by {
      CDivUnique(10_432_000, DAY_TENTHS, 12);
    }
    assert CDiv(-9_568_000, DAY_TENTHS) == -11 by {
      CDivUnique(-9_568_000, DAY_TENTHS, -11);
    }
  }

  /** Past the range where nothing overflows, the product `bias * raw` wraps in
      its `long`. A bias of +2500 on a one-second beat multiplies to 2500000000,
      which wraps to -1794967296: the beat comes out 2077 microseconds short at
      997923, where the exact correction makes it 1002894. */
  lemma LargeBiasWraps()
    ensures !SafeCorrection(2500, 1_000_000)
    ensures Measured(2500, 1_000_000) == 997_923
    ensures 1_000_000 + CDiv(2500 * 1_000_000 + HALF_DAY_TENTHS, DAY_TENTHS) == 1_002_894
  {
    assert Wrap32(2_500_000_000) == -1_794_967_296;
    assert CDiv(-1_794_535_296, DAY_TENTHS) == -2077 by {
      CDivUnique(-1_794_535_296, DAY_TENTHS, -2077);
    }
    assert CDiv(2_500_432_000, DAY_TENTHS) == 2894 by {
      CDivUnique(2_500_432_000, DAY_TENTHS, 2894);
    }
  }

  // ---------------------------------------------------------------------------
  // One beat per mode

  /** SETTLING: the corrected interval (0 if above five seconds) becomes the beat
      duration and the tick or tock period; only a tock counts a cycle, and the
      tock that takes the counter past `tgtSettle` enters SCALING. */
  lemma SettlingBeat(s: State, p: Passage)
    requires s.runMode == Settling && s.lastTime != 0
    ensures var r := Beat(s, p); var e := r.state;
      var u := Interval(s, p.t);
      var v := if u > MAX_BEAT then 0 else u;
      && r.uspb == v && e.tick == !s.tick
      && (s.tick ==> && e.runMode == Settling && e.tickPeriod == v && e.tockPeriod == s.tockPeriod
                     && e.cycleCounter == s.cycleCounter)
      && (!s.tick ==> && e.tockPeriod == v && e.tickPeriod == s.tickPeriod
                      && (e.runMode == Scaling <==> Inc16(s.cycleCounter) > s.tgtSettle))
      && (e.runMode == Settling ==>
            e.cycleCounter == (if s.tick then s.cycleCounter else Inc16(s.cycleCounter))
            && e.peakScale == s.peakScale)
      && (e.runMode == Scaling ==> e.cycleCounter == 1 && e.peakScale == INITIAL_PEAK_SCALE)
      && e.tickAvg == s.tickAvg && e.tockAvg == s.tockAvg && e.curSmoothing == s.curSmoothing
  {
  }

  /** SCALING: the peak scale rises by one exactly when the peak exceeds
      `MAX_PEAK`, the beat is measured as in SETTLING, and the tock that takes the
      counter past `tgtScale` enters CALIBRATING, which keeps the peak scale. */
  lemma ScalingBeat(s: State, p: Passage)
    requires s.runMode == Scaling && s.lastTime != 0
    ensures var r := Beat(s, p); var e := r.state;
      var u := Interval(s, p.t);
      var v := if u > MAX_BEAT then 0 else u;
      && r.uspb == v && e.tick == !s.tick
      && e.peakScale == Ratchet(s.peakScale, p.peak)
      && (s.peakScale < 0x7FFF ==>
            (e.peakScale == s.peakScale + 1 <==> p.peak > MAX_PEAK)
            && (e.peakScale == s.peakScale <==> p.peak <= MAX_PEAK))
      && (s.tick ==> && e.runMode == Scaling && e.tickPeriod == v && e.tockPeriod == s.tockPeriod
                     && e.cycleCounter == s.cycleCounter)
      && (!s.tick ==> && e.tockPeriod == v && e.tickPeriod == s.tickPeriod
                      && (e.runMode == Calibrating <==> Inc16(s.cycleCounter) > s.tgtScale))
      && (e.runMode == Scaling ==>
            && e.cycleCounter == (if s.tick then s.cycleCounter else Inc16(s.cycleCounter))
            && e.tickAvg == s.tickAvg && e.tockAvg == s.tockAvg && e.curSmoothing == s.curSmoothing)
      && (e.runMode == Calibrating ==> e.tickAvg == 0 && e.tockAvg == 0 && e.curSmoothing == 1)
  {
  }

  /** In SETTLING and SCALING, when no intermediate overflows, the reported beat is
      the exactly corrected raw interval, or 0 when that exceeds five seconds; it is
      never negative and never above five seconds. */
  lemma MeasuringBeatValue(s: State, p: Passage)
    requires s.runMode in {Settling, Scaling} && s.lastTime != 0
    requires SafeCorrection(s.bias, USub32(p.t, s.lastTime))
    ensures var raw := USub32(p.t, s.lastTime);
      var x := raw + CDiv(s.bias * raw + HALF_DAY_TENTHS, DAY_TENTHS);
      && Beat(s, p).uspb == (if x > MAX_BEAT then 0 else x)
      && 0 <= Beat(s, p).uspb <= MAX_BEAT
  {
    MeasuredPositive(s.bias, USub32(p.t, s.lastTime));
    if s.runMode == Settling {
      SettlingBeat(s, p);
    } else {
      ScalingBeat(s, p);
    }
  }

  /** A `micros()` difference between 2^31 and 2^32 - 1 (about 36 to 72 minutes
      between passages; a longer gap wraps to its remainder modulo 2^32) turns
      negative in the `long` that holds the interval. With no bias the
      correction adds nothing, the five-second cap lets the negative value
      through, and SETTLING and SCALING report it as the beat duration. */
  lemma LongGapNegative(s: State, p: Passage)
    requires s.runMode in {Settling, Scaling} && s.lastTime != 0 && s.bias == 0
    requires USub32(p.t, s.lastTime) >= 0x8000_0000
    ensures Beat(s, p).uspb == USub32(p.t, s.lastTime) - TWO32
    ensures Beat(s, p).uspb < 0
  {
    var raw := USub32(p.t, s.lastTime);
    assert CDiv(HALF_DAY_TENTHS, DAY_TENTHS) == 0;
    assert Measured(0, raw) == raw - TWO32;
  }

  /** CALIBRATING: a tock while the tick average is 0 is handled as a tick; a tick
      folds the corrected interval into the tick average, a tock into the tock
      average and advances the smoothing interval, entering CALFINISH once that
      exceeds `tgtSmoothing`. The beat reported is the tick average until a tock
      average exists, then the mean of both. Intervals are not checked against the
      five-second limit here. */
  lemma CalibratingBeat(s: State, p: Passage)
    requires s.runMode == Calibrating && s.lastTime != 0 && s.curSmoothing != 0
    ensures var r := Beat(s, p); var e := r.state;
      var asTick := s.tick || s.tickAvg == 0;
      var m := Interval(s, p.t);
      && e.tick == !asTick
      && (asTick ==>
            && e.tickPeriod == m && e.tickAvg == Smooth(s.tickAvg, m, s.curSmoothing)
            && e.tockPeriod == s.tockPeriod && e.tockAvg == s.tockAvg
            && e.curSmoothing == s.curSmoothing && e.runMode == Calibrating)
      && (!asTick ==>
            && e.tockPeriod == m && e.tockAvg == Smooth(s.tockAvg, m, s.curSmoothing)
            && e.tickPeriod == s.tickPeriod && e.tickAvg == s.tickAvg
            && e.curSmoothing == Inc16(s.curSmoothing)
            && (e.runMode == CalFinish <==> Inc16(s.curSmoothing) > s.tgtSmoothing))
      && r.uspb == (if e.tockAvg == 0 then e.tickAvg else Mean(e.tickAvg, e.tockAvg))
      && e.cycleCounter == s.cycleCounter && e.peakScale == s.peakScale
  {
  }

  /** CALFINISH lasts one beat: the next beat enters RUNNING and reports the
      calibrated duration without measuring anything. */
  lemma CalFinishBeat(s: State, p: Passage)
    requires s.runMode == CalFinish && s.lastTime != 0
    ensures Beat(s, p).uspb == s.uspb
    ensures Beat(s, p).state ==
      s.(runMode := Running, tick := !s.tick, timeBeforeLast := s.lastTime, lastTime := p.t)
  {
  }

  /** RUNNING measures nothing: only the tick flag and the time stamps move. */
  lemma RunningBeat(s: State, p: Passage)
    requires s.runMode == Running && s.lastTime != 0
    ensures Beat(s, p).uspb == s.uspb
    ensures Beat(s, p).state == s.(tick := !s.tick, timeBeforeLast := s.lastTime, lastTime := p.t)
  {
  }

  /** A passage stamped 0 (`micros()` reads 0 once every 2^32 microseconds) leaves
      the object without a time base, in every mode: the next beat is handled as a
      first one, returns 0 and only records its time. */
  lemma ZeroStampRestarts(s: State, a: Passage, b: Passage)
    requires CanBeat(s) && a.t == 0
    ensures Beat(s, a).state.lastTime == 0
    ensures Beat(Beat(s, a).state, b) == Reply(Beat(s, a).state.(lastTime := b.t), 0)
  {
  }

  // ---------------------------------------------------------------------------
  // Setters

  /** Every `setRunMode` is idempotent, and a code outside 0..4 is ignored. */
  lemma SetRunModeIdempotent(s: State, code: Byte)
    ensures SetRunMode(SetRunMode(s, code), code) == SetRunMode(s, code)
    ensures code > 4 ==> SetRunMode(s, code) == s
  {
  }

  /** What `getCycleCounter()` reads right after each `setRunMode`. */
  lemma CycleCounterAfterSetRunMode(s: State, code: Byte)
    ensures code <= 2 ==> CycleCounterReading(SetRunMode(s, code)) == 1
    ensures code == 3 ==> CycleCounterReading(SetRunMode(s, code)) == s.cycleCounter
    ensures code == 4 ==> CycleCounterReading(SetRunMode(s, code)) == -1
  {
  }

  /** `incrBias(-f)` undoes `incrBias(f)`, even across 16-bit wrap-around. The
      negation is taken in 16 bits as C takes it, so for f = -32768 it is -32768
      again, and two such calls also restore the bias. */
  lemma IncrBiasUndo(s: State, f: Int16)
    ensures IncrBias(IncrBias(s, f).0, Wrap16(-(f as int))).0 == s
  {
    var b := IncrBias(s, f).1;
    var g := Wrap16(-(f as int));
    var b2 := Wrap16(b + g);
    assert (-(f as int) - g) % TWO16 == 0;
    assert (b + g - b2) % TWO16 == 0;
    assert (s.bias + f - b) % TWO16 == 0;
    assert (b - f - b2) % TWO16 == 0;
    assert (s.bias - b2) % TWO16 == 0;
    assert b2 == s.bias;
  }
}

=== FILE: bendulum.dfy ===
/** The beat-timing and calibration state machine of a Bendulum driver.

    All hardware interaction is outside the model: each call of `beat()` is the
    step `Beat(s, Passage(t, peak))`, where `t` is the `micros()` reading taken when
    the magnet passed the coil and `peak` is the last scaled coil reading before the
    induced voltage began to fall. */
module Bendulum {
  import opened CInt
  import opened Modes

  /** Scaled peaks above this make SCALING raise the peak scale. */
  const MAX_PEAK: int := 1
  /** Measured beats longer than this many microseconds are not real. */
  const MAX_BEAT: int := 5_000_000
  /** Tenths of a second in a day, and half of that for rounding. */
  const DAY_TENTHS: int := 864_000
  const HALF_DAY_TENTHS: int := 432_000

  const DEFAULT_TGT_SETTLE: Int16 := 32
  const DEFAULT_TGT_SCALE: Int16 := 128
  const DEFAULT_TGT_SMOOTHING: Int16 := 2048
  const INITIAL_PEAK_SCALE: Int16 := 10

  /** The instance variables of a Bendulum object, at the widths the AVR compiler
      gives them (`int` 16 bits, `long` 32 bits, `unsigned long` 32 bits). */
  datatype State = State(
    runMode: Mode,
    cycleCounter: Int16,     // cycles completed in SETTLING or SCALING
    tgtSettle: Int16,        // cycles to spend in SETTLING
    tgtScale: Int16,         // cycles to spend in SCALING
    tgtSmoothing: Int16,     // cycles to spend in CALIBRATING
    curSmoothing: Int16,     // current smoothing interval in CALIBRATING
    uspb: Int32,             // best estimate of one beat, in microseconds
    bias: Int16,             // clock correction, tenths of a second per day
    peakScale: Int16,        // divisor applied to coil readings
    tick: bool,              // awaiting a tick (true) or a tock (false)
    tickAvg: Int32,
    tockAvg: Int32,
    tickPeriod: Int32,
    tockPeriod: Int32,
    lastTime: UInt32,        // micros() at the last passage, 0 before the first
    timeBeforeLast: UInt32)

  /** One detected passage of the magnet: its time stamp and the peak reading. */
  datatype Passage = Passage(t: UInt32, peak: Int16)

  /** The object after a call, and the `long` the call returned. */
  datatype Reply = Reply(state: State, uspb: Int32)

  /** Fields that no operation of `beat()` writes. */
  predicate SameConfig(s: State, e: State)
  {
    && e.bias == s.bias
    && e.tgtSettle == s.tgtSettle
    && e.tgtScale == s.tgtScale
    && e.tgtSmoothing == s.tgtSmoothing
  }

  // ---------------------------------------------------------------------------
  // Construction

  /** A freshly constructed object. The constructor never assigns `uspb`, so its
      initial value is whatever the storage held; it is a parameter here. */
  function Construct(unsetUspb: Int32): (s: State)
    ensures s.runMode == Settling && s.lastTime == 0 && s.tick
    ensures Enter(s, Settling) == s
    ensures CanBeat(s)
    ensures s.tgtSettle == 32 && s.tgtScale == 128 && s.tgtSmoothing == 2048
    ensures s.bias == 0 && s.peakScale == INITIAL_PEAK_SCALE && s.uspb == unsetUspb
  {
    State(
      runMode := Settling,
      cycleCounter := 1,
      tgtSettle := DEFAULT_TGT_SETTLE,
      tgtScale := DEFAULT_TGT_SCALE,
      tgtSmoothing := DEFAULT_TGT_SMOOTHING,
      curSmoothing := 1,
      uspb := unsetUspb,
      bias := 0,
      peakScale := INITIAL_PEAK_SCALE,
      tick := true,
      tickAvg := 0,
      tockAvg := 0,
      tickPeriod := 0,
      tockPeriod := 0,
      lastTime := 0,
      timeBeforeLast := 0)
  }

  // ---------------------------------------------------------------------------
  // Clock correction

  /** No intermediate of the correction of `x` by `k` leaves the `long` range. */
  predicate SafeCorrection(k: int, x: int)
  {
    0 <= x <= 2_000_000_000 && -2_000_000_000 <= k * x <= 2_000_000_000
  }

  /** `x + ((k * x) + 432000) / 864000` in `long` arithmetic: `x` microseconds
      corrected by `k` tenths of a second per day, rounded by adding half a day. */
  function AddCorrection(k: Int32, x: Int32): (r: Int32)
    ensures SafeCorrection(k, x) ==> r == x + CDiv(k * x + HALF_DAY_TENTHS, DAY_TENTHS)
  {
    Wrap32(x + CDiv(Wrap32(Wrap32(k * x) + HALF_DAY_TENTHS), DAY_TENTHS))
  }

  /** The raw interval `raw` (an `unsigned long` difference assigned to a `long`)
      corrected by the clock bias. */
  function Measured(bias: Int16, raw: UInt32): (r: Int32)
    ensures SafeCorrection(bias, raw) ==> r == raw + CDiv(bias * raw + HALF_DAY_TENTHS, DAY_TENTHS)
  {
    AddCorrection(bias, Wrap32(raw))
  }

  /** The corrected time since the last passage, for a passage at `t`. */
  function Interval(s: State, t: UInt32): Int32
  {
    Measured(s.bias, USub32(t, s.lastTime))
  }

  // ---------------------------------------------------------------------------
  // Running averages

  /** `avg + (sample - avg) / n` in `long` arithmetic: one step of the running
      average whose window is the current smoothing interval `n`. */
  function Smooth(avg: Int32, sample: Int32, n: Int16): (r: Int32)
    requires n != 0
    ensures avg == sample ==> r == avg
    ensures 0 <= avg && 0 <= sample && 1 <= n ==>
      (avg <= sample ==> avg <= r <= sample) && (sample <= avg ==> sample <= r <= avg)
    ensures 0 <= avg && 0 <= sample && n == 1 ==> r == sample
  {
    var q := CDiv(Wrap32(sample - avg), n);
    CDivShrinks(Wrap32(sample - avg), n);
    Wrap32(avg + q)
  }

  /** `(a + b) / 2` in `long` arithmetic. */
  function Mean(a: Int32, b: Int32): (r: Int32)
    ensures Fits32(a + b) ==>
      (a <= b ==> a <= r <= b) && (b <= a ==> b <= r <= a)
    ensures a == b && Fits32(a + b) ==> r == a
  {
    CDiv(Wrap32(a + b), 2)
  }

  /** The beat duration CALIBRATING reports: the tick average alone until a tock
      average exists, then the mean of the two. */
  function CalibratedBeat(tickAvg: Int32, tockAvg: Int32): Int32
  {
    if tockAvg == 0 then tickAvg else Mean(tickAvg, tockAvg)
  }

  // ---------------------------------------------------------------------------
  // Mode changes

  /** Entering mode `m` resets exactly the state `m` owns. */
  function Enter(s: State, m: Mode): (r: State)
    ensures r.runMode == m
    ensures SameConfig(s, r) && r.uspb == s.uspb && r.tick == s.tick
    ensures r.tickPeriod == s.tickPeriod && r.tockPeriod == s.tockPeriod
    ensures r.lastTime == s.lastTime && r.timeBeforeLast == s.timeBeforeLast
    ensures r.cycleCounter == if m == Settling || m == Scaling then 1 else s.cycleCounter
    ensures r.peakScale == if m == Scaling then INITIAL_PEAK_SCALE else s.peakScale
    ensures m == Calibrating ==> r.tickAvg == 0 && r.tockAvg == 0 && r.curSmoothing == 1
    ensures m != Calibrating ==>
      r.tickAvg == s.tickAvg && r.tockAvg == s.tockAvg && r.curSmoothing == s.curSmoothing
  {
    match m
    case Settling => s.(runMode := Settling, cycleCounter := 1)
    case Scaling => s.(runMode := Scaling, cycleCounter := 1, peakScale := INITIAL_PEAK_SCALE)
    case Calibrating => s.(runMode := Calibrating, tickAvg := 0, tockAvg := 0, curSmoothing := 1)
    case CalFinish => s.(runMode := CalFinish)
    case Running => s.(runMode := Running)
  }

  /** `setRunMode(mode)`: a code outside 0..4 changes nothing. */
  function SetRunMode(s: State, code: Byte): (r: State)
    ensures code > 4 ==> r == s
    ensures code <= 4 ==> Code(r.runMode) == code && r == Enter(s, r.runMode)
  {
    match FromCode(code)
    case None => s
    case Some(m) => Enter(s, m)
  }

  /** `getRunMode()`. */
  function RunModeCode(s: State): (c: Byte)
    ensures FromCode(c) == Some(s.runMode)
  {
    Code(s.runMode)
  }

  /** `getCycleCounter()`: -1 in RUNNING, the smoothing interval in CALIBRATING,
      otherwise the cycle counter. */
  function CycleCounterReading(s: State): (r: Int16)
    ensures s.runMode == Running ==> r == -1
    ensures s.runMode == Calibrating ==> r == s.curSmoothing
    ensures s.runMode !in {Running, Calibrating} ==> r == s.cycleCounter
  {
    if s.runMode == Running then -1
    else if s.runMode == Calibrating then s.curSmoothing
    else s.cycleCounter
  }

  // ---------------------------------------------------------------------------
  // beat() and cycle()

  /** What `beat()` needs to have defined behaviour: the division by the smoothing
      interval in CALIBRATING needs a nonzero divisor. */
  predicate CanBeat(s: State)
  {
    s.lastTime != 0 && s.runMode == Calibrating ==> s.curSmoothing != 0
  }

  /** SCALING's ratchet: one more for a peak above `MAX_PEAK` (`peakScale += 1`). */
  function Ratchet(peakScale: Int16, peak: Int16): Int16
  {
    if peak > MAX_PEAK then Inc16(peakScale) else peakScale
  }

  /** The SETTLING and SCALING step: measure the beat, file it as a tick or a tock
      period, and on a tock count the cycle, moving to `next` past `target` cycles. */
  function MeasureStep(s: State, t: UInt32, target: Int16, next: Mode): State
  {
    var u := Interval(s, t);
    var v := if u > MAX_BEAT then 0 else u;
    if s.tick then
      s.(uspb := v, tickPeriod := v)
    else
      var c := Inc16(s.cycleCounter);
      var e := s.(uspb := v, tockPeriod := v, cycleCounter := c);
      if c > target then Enter(e, next) else e
  }

  /** The CALIBRATING step: a tock while no tick average exists is taken as a tick;
      a tick updates the tick average, a tock the tock average and the smoothing
      interval, moving to CALFINISH past `tgtSmoothing`. */
  function CalibrateStep(s: State, t: UInt32): State
    requires s.curSmoothing != 0
  {
    var p := Interval(s, t);
    var e :=
      if s.tick || s.tickAvg == 0 then
        s.(tick := true, tickPeriod := p, tickAvg := Smooth(s.tickAvg, p, s.curSmoothing))
      else
        var n := Inc16(s.curSmoothing);
        var e0 := s.(tockPeriod := p, tockAvg := Smooth(s.tockAvg, p, s.curSmoothing),
                     curSmoothing := n);
        if n > s.tgtSmoothing then Enter(e0, CalFinish) else e0;
    e.(uspb := CalibratedBeat(e.tickAvg, e.tockAvg))
  }

  /** `beat()` after the passage `p` has been detected. The first call only records
      the time; every later call runs the step of the current mode, flips tick and
      tock, shifts the time stamps and returns the beat duration. */
  function Beat(s: State, p: Passage): (r: Reply)
    requires CanBeat(s)
    ensures SameConfig(s, r.state)
    ensures s.lastTime == 0 ==> r.uspb == 0 && r.state == s.(lastTime := p.t)
    ensures s.lastTime != 0 ==>
      r.uspb == r.state.uspb && r.state.lastTime == p.t && r.state.timeBeforeLast == s.lastTime
    ensures r.state.runMode == s.runMode || r.state.runMode == Next(s.runMode)
    ensures s.runMode !in {Settling, Scaling} ==> r.state.peakScale == s.peakScale
    ensures s.runMode !in {Settling, Scaling} ==> r.state.cycleCounter == s.cycleCounter
  {
    if s.lastTime == 0 then
      Reply(s.(lastTime := p.t), 0)
    else
      var m :=
        match s.runMode
        case Settling => MeasureStep(s, p.t, s.tgtSettle, Scaling)
        case Scaling =>
          MeasureStep(s.(peakScale := Ratchet(s.peakScale, p.peak)), p.t, s.tgtScale, Calibrating)
        case Calibrating => CalibrateStep(s, p.t)
        case CalFinish => Enter(s, Running)
        case Running => s;
      var e := m.(tick := !m.tick, timeBeforeLast := s.lastTime, lastTime := p.t);
      Reply(e, e.uspb)
  }

  /** What `cycle()` needs to have defined behaviour, stated on the object before
      the first beat: the second beat's division in CALIBRATING must not meet a
      smoothing interval that the first beat's tock has just wrapped to 0. */
  predicate CanCycle(s: State, a: Passage)
  {
    && CanBeat(s)
    && (a.t != 0 && s.runMode == Calibrating ==>
          if s.lastTime == 0 then s.curSmoothing != 0
          else s.tick || s.tickAvg == 0 || Inc16(s.curSmoothing) != 0
               || Inc16(s.curSmoothing) > s.tgtSmoothing)
  }

  /** `CanCycle` holds exactly when both beats of the cycle have defined behaviour. */
  lemma CycleDefined(s: State, a: Passage)
    requires CanBeat(s)
    ensures CanCycle(s, a) <==> CanBeat(Beat(s, a).state)
  {
  }

  /** `cycle()`: two beats, returning the sum of what they returned. */
  function Cycle(s: State, a: Passage, b: Passage): (r: Reply)
    requires CanCycle(s, a)
    ensures s.lastTime == 0 && a.t != 0 ==>
      r == Beat(s.(lastTime := a.t), b)
    ensures s.runMode == Running && s.lastTime != 0 && a.t != 0 ==>
      && r.uspb == Wrap32(2 * s.uspb)
      && r.state == s.(timeBeforeLast := a.t, lastTime := b.t)
  {
    CycleDefined(s, a);
    var r1 := Beat(s, a);
    var r2 := Beat(r1.state, b);
    Reply(r2.state, Wrap32(r1.uspb + r2.uspb))
  }

  // ---------------------------------------------------------------------------
  // Getters and setters with logic of their own

  /** `setTgtSettle(interval)`. */
  function SetTgtSettle(s: State, interval: Int16): (r: State)
    ensures r.tgtSettle == interval && r.(tgtSettle := s.tgtSettle) == s
  {
    s.(tgtSettle := interval)
  }

  /** `setTgtSmoothing(interval)`. */
  function SetTgtSmoothing(s: State, interval: Int16): (r: State)
    ensures r.tgtSmoothing == interval && r.(tgtSmoothing := s.tgtSmoothing) == s
  {
    s.(tgtSmoothing := interval)
  }

  /** `setBias(factor)`. */
  function SetBias(s: State, factor: Int16): (r: State)
    ensures r.bias == factor && r.(bias := s.bias) == s
  {
    s.(bias := factor)
  }

  /** `incrBias(factor)`: `bias += factor` in 16-bit `int`, returning the new bias. */
  function IncrBias(s: State, factor: Int16): (r: (State, Int16))
    ensures r.0.bias == r.1 && r.0.(bias := s.bias) == s
    ensures (s.bias + factor - r.1) % TWO16 == 0
    ensures Fits16(s.bias + factor) ==> r.1 == s.bias + factor
  {
    var b := Wrap16(s.bias + factor);
    (s.(bias := b), b)
  }

  /** `setPeakScale(scaleFactor)`. */
  function SetPeakScale(s: State, scaleFactor: Int16): (r: State)
    ensures r.peakScale == scaleFactor && r.(peakScale := s.peakScale) == s
  {
    s.(peakScale := scaleFactor)
  }

  /** `setBeatDuration(beatDur)`: the beat duration and both averages become `beatDur`. */
  function SetBeatDuration(s: State, beatDur: Int32): (r: State)
    ensures r.uspb == beatDur && r.tickAvg == beatDur && r.tockAvg == beatDur
    ensures r.(uspb := s.uspb, tickAvg := s.tickAvg, tockAvg := s.tockAvg) == s
  {
    s.(uspb := beatDur, tickAvg := beatDur, tockAvg := beatDur)
  }

  /** `incrBeatDuration(incr)`: the beat duration corrected once by `incr` tenths
      of a second per day, copied into both averages, and returned. */
  function IncrBeatDuration(s: State, incr: Int32): (r: Reply)
    ensures r.uspb == r.state.uspb && r.state.tickAvg == r.uspb && r.state.tockAvg == r.uspb
    ensures r.state.(uspb := s.uspb, tickAvg := s.tickAvg, tockAvg := s.tockAvg) == s
    ensures SafeCorrection(incr, s.uspb) ==>
      r.uspb == s.uspb + CDiv(incr * s.uspb + HALF_DAY_TENTHS, DAY_TENTHS)
    ensures incr == 0 ==> r.uspb == s.uspb
  {
    var u := AddCorrection(incr, s.uspb);
    Reply(s.(uspb := u, tickAvg := u, tockAvg := u), u)
  }
}

=== FILE: cint.dfy ===
/** Fixed-width integer arithmetic of the AVR C dialect the library is compiled for:
    `int` is 16 bits, `long` is 32 bits, `unsigned long` is 32 bits and `byte` is 8 bits.
    Signed overflow is modelled as two's-complement wrap-around (what the AVR code
    generator produces), and `/` as C division, which truncates toward zero. */
module CInt {

  const TWO16: int := 0x1_0000
  const TWO32: int := 0x1_0000_0000

  type Byte = x: int | 0 <= x < 0x100
  type Int16 = x: int | -0x8000 <= x < 0x8000
  type Int32 = x: int | -0x8000_0000 <= x < 0x8000_0000
  type UInt32 = x: int | 0 <= x < 0x1_0000_0000

  predicate Fits16(x: int) { -0x8000 <= x < 0x8000 }
  predicate Fits32(x: int) { -0x8000_0000 <= x < 0x8000_0000 }

  function Abs(x: int): nat { if x < 0 then -x else x }

  /** The 16-bit two's-complement value congruent to `x`. */
  function Wrap16(x: int): (r: Int16)
    ensures (x - r) % TWO16 == 0
    ensures Fits16(x) ==> r == x
  {
    var m := x % TWO16;
    if m < 0x8000 then m else m - TWO16
  }

  /** The 32-bit two's-complement value congruent to `x`. */
  function Wrap32(x: int): (r: Int32)
    ensures (x - r) % TWO32 == 0
    ensures Fits32(x) ==> r == x
  {
    var m := x % TWO32;
    if m < 0x8000_0000 then m else m - TWO32
  }

  /** `++x` on a 16-bit `int`. */
  function Inc16(x: Int16): (r: Int16)
    ensures x < 0x7FFF ==> r == x + 1
    ensures x == 0x7FFF ==> r == -0x8000
  {
    Wrap16(x + 1)
  }

  /** `a - b` on `unsigned long`: the distance from `b` forward to `a` modulo 2^32. */
  function USub32(a: UInt32, b: UInt32): (r: UInt32)
    ensures (b + r) % TWO32 == a
    ensures b <= a ==> r == a - b
  {
    (a - b) % TWO32
  }

  /** C's `a / b`: the quotient truncated toward zero. The remainder `a - q*b`
      is smaller than the divisor in magnitude and never has the opposite sign of `a`
      (section 6.5.5 of ISO/IEC 9899). */
  function CDiv(a: int, b: int): (q: int)
    requires b != 0
    ensures Abs(a - q * b) < Abs(b)
    ensures a >= 0 ==> a - q * b >= 0
    ensures a <= 0 ==> a - q * b <= 0
  {
    var q0 := Abs(a) / Abs(b);
    var q := if (a < 0) == (b < 0) then q0 else -q0;
    CDivRemainder(a, b, q0, q);
    q
  }

  lemma CDivRemainder(a: int, b: int, q0: int, q: int)
    requires b != 0 && q0 == Abs(a) / Abs(b)
    requires q == if (a < 0) == (b < 0) then q0 else -q0
    ensures Abs(a - q * b) < Abs(b)
    ensures a >= 0 ==> a - q * b >= 0
    ensures a <= 0 ==> a - q * b <= 0
  {
    var m := q0 * Abs(b);
    assert 0 <= Abs(a) - m < Abs(b);
    assert q * b == (if a < 0 then -m else m) by {
      if b < 0 {
        assert Abs(b) == -b;
      }
    }
  }

  /** Truncating division is odd in its dividend; Euclidean division is not. */
  lemma CDivNegate(a: int, b: int)
    requires b != 0
    ensures CDiv(-a, b) == -CDiv(a, b)
  {
  }

  /** The quotient characterised by the remainder conditions is unique, so `CDiv`
      is the only function with `CDiv`'s contract. */
  lemma CDivUnique(a: int, b: int, q: int)
    requires b > 0
    requires Abs(a - q * b) < b
    requires a >= 0 ==> a - q * b >= 0
    requires a <= 0 ==> a - q * b <= 0
    ensures q == CDiv(a, b)
  {
    var c := CDiv(a, b);
    if q < c {
      MulMonotone(q + 1, c, b);
    } else if q > c {
      MulMonotone(c + 1, q, b);
    }
  }

  lemma MulMonotone(x: int, y: int, b: int)
    requires x <= y && b > 0
    ensures x * b <= y * b
  {
  }

  /** Relation to Dafny's Euclidean `/` for a positive divisor: equal on a
      non-negative dividend, one larger on a negative dividend that is not a multiple. */
  lemma CDivVersusEuclid(a: int, b: int)
    requires b > 0
    ensures a >= 0 ==> CDiv(a, b) == a / b
    ensures a < 0 && a % b != 0 ==> CDiv(a, b) == a / b + 1
    ensures a % b == 0 ==> CDiv(a, b) == a / b
  {
    if a < 0 {
      var e := a / b;
      assert a == e * b + a % b;
      if a % b != 0 {
        CDivUnique(a, b, e + 1);
      } else {
        CDivUnique(a, b, e);
      }
    }
  }

  /** A positive divisor of magnitude at least one never enlarges the dividend. */
  lemma CDivShrinks(a: int, b: int)
    requires b != 0
    ensures b >= 1 ==> Abs(CDiv(a, b)) <= Abs(a)
    ensures b >= 1 && a >= 0 ==> 0 <= CDiv(a, b) <= a
    ensures b >= 1 && a <= 0 ==> a <= CDiv(a, b) <= 0
  {
    if b < 1 {
      return;
    }
    var q0 := Abs(a) / b;
    assert CDiv(a, b) == if a < 0 then -q0 else q0;
    assert q0 * b <= Abs(a);
    if q0 > 0 { MulMonotone(1, b, q0); }
  }
}

=== FILE: modes.dfy ===
/** The five run modes of a Bendulum and the byte codes by which callers name them. */
module Modes {
  import opened CInt

  datatype Option<T> = None | Some(value: T)

  /** SETTLING lets the motion settle, SCALING tunes the peak scale, CALIBRATING
      averages beat durations, CALFINISH announces for one beat that calibration is
      done, and RUNNING reports the calibrated beat duration indefinitely. */
  datatype Mode = Settling | Scaling | Calibrating | CalFinish | Running

  /** The `#define`d constant of each mode. */
  function Code(m: Mode): (c: Byte)
    ensures c <= 4
  {
    match m
    case Settling => 0
    case Scaling => 1
    case Calibrating => 2
    case CalFinish => 3
    case Running => 4
  }

  /** The mode a `byte` argument of `setRunMode` selects, if any. */
  function FromCode(c: Byte): (r: Option<Mode>)
    ensures r.Some? <==> c <= 4
  {
    if c == 0 then Some(Settling)
    else if c == 1 then Some(Scaling)
    else if c == 2 then Some(Calibrating)
    else if c == 3 then Some(CalFinish)
    else if c == 4 then Some(Running)
    else None
  }

  /** Codes and modes are in one-to-one correspondence on 0..4. */
  lemma CodeRoundTrip(m: Mode, c: Byte)
    ensures FromCode(Code(m)) == Some(m)
    ensures FromCode(c) == Some(m) ==> Code(m) == c
  {
  }

  /** The mode the automatic lifecycle moves to from `m`; RUNNING is final. */
  function Next(m: Mode): (n: Mode)
    ensures m != Running ==> Code(n) == Code(m) + 1
    ensures m == Running ==> n == Running
  {
    match m
    case Settling => Scaling
    case Scaling => Calibrating
    case Calibrating => CalFinish
    case CalFinish => Running
    case Running => Running
  }
}

=== FILE: runs.dfy ===
/** Sequences of beats: how long each phase of the lifecycle lasts, what the
    calibration converges to for a steady resonator, and what RUNNING reports. */
module Runs {
  import opened CInt
  import opened Modes
  import opened Bendulum
  import opened BeatSteps

  /** Every beat of the run `ins` from `s` has defined behaviour. */
  predicate Runnable(s: State, ins: seq<Passage>)
    decreases |ins|, 1
  {
    |ins| == 0 || (Runnable(s, ins[..|ins| - 1]) && CanBeat(Run(s, ins[..|ins| - 1])))
  }

  /** The object after `beat()` has been called once per passage of `ins`. */
  function Run(s: State, ins: seq<Passage>): State
    requires Runnable(s, ins)
    decreases |ins|, 2
  {
    if |ins| == 0 then s else Beat(Run(s, ins[..|ins| - 1]), ins[|ins| - 1]).state
  }

  /** The time stamp of the latest passage, `last` if there was none. */
  function LastTime(last: UInt32, ins: seq<Passage>): UInt32
  {
    if |ins| == 0 then last else ins[|ins| - 1].t
  }

  /** No passage is stamped 0 (a 0 would make the following beat a first one). */
  predicate NonZeroTimes(ins: seq<Passage>)
  {
    forall i :: 0 <= i < |ins| ==> ins[i].t != 0
  }

  /** The time from passage `i - 1` to passage `i`. */
  function Gap(ins: seq<Passage>, i: int): UInt32
    requires 0 < i < |ins|
  {
    USub32(ins[i].t, ins[i - 1].t)
  }

  /** Passages exactly `raw` microseconds apart on the wrapping 32-bit clock,
      the first `raw` after `last`, none stamped 0. */
  predicate Steady(last: UInt32, ins: seq<Passage>, raw: UInt32)
  {
    && NonZeroTimes(ins)
    && (|ins| > 0 ==> USub32(ins[0].t, last) == raw)
    && forall i :: 0 < i < |ins| ==> Gap(ins, i) == raw
  }

  /** Passages whose peak makes SCALING raise the peak scale. */
  function Highs(ins: seq<Passage>): (n: nat)
    ensures n <= |ins|
  {
    if |ins| == 0 then 0
    else Highs(ins[..|ins| - 1]) + (if ins[|ins| - 1].peak > MAX_PEAK then 1 else 0)
  }

  lemma NonZeroPrefix(ins: seq<Passage>, j: nat)
    requires NonZeroTimes(ins) && j <= |ins|
    ensures NonZeroTimes(ins[..j])
  {
    forall i | 0 <= i < j ensures ins[..j][i].t != 0 {
      assert ins[..j][i] == ins[i];
    }
  }

  // ---------------------------------------------------------------------------
  // Cycle counting, shared by SETTLING and SCALING

  /** How far into its cycle an object is: 0 beats while it awaits a tick, 1 while
      it awaits a tock. `setRunMode` does not reset it. */
  function CyclePhase(s: State): (n: nat)
    ensures n <= 1 && (n == 0 <==> s.tick)
  {
    if s.tick then 0 else 1
  }

  /** The counter value a run of cycles from counter `c` actually counts to: the
      source leaves a mode when an incremented counter exceeds its target, so a
      target below `c` is passed by the first tock, as if it were `c`. */
  function Reach(target: int, c: int): int
  {
    if target < c then c else target
  }

  /** Where mode `cur`, entered with counter `c`, stands `k` beats into its cycles
      (the beats run plus the starting `CyclePhase`): still in `cur` with `k / 2`
      more cycles counted before beat 2*(target - c + 1), and in `next`, awaiting a
      tick, at that beat. */
  predicate CountedAfter(c: int, e: State, k: nat, target: int, cur: Mode, next: Mode)
  {
    && (k < 2 * (target - c + 1) ==>
          e.runMode == cur && e.cycleCounter == c + k / 2 && e.tick == (k % 2 == 0))
    && (k == 2 * (target - c + 1) ==> e.runMode == next && e.tick)
  }

  /** The counting of one more SETTLING or SCALING beat, from its effect alone:
      a tick keeps the counter, a tock increments it and leaves `cur` exactly when
      it passes `target`. */
  lemma CountingStep(c: int, m: State, e: State, k: nat, target: int, cur: Mode, next: Mode)
    requires c <= target < 0x7FFF && k < 2 * (target - c + 1) && cur != next
    requires CountedAfter(c, m, k, target, cur, next)
    requires e.tick == !m.tick && (e.runMode == cur || e.runMode == next)
    requires m.tick ==> e.runMode == cur && e.cycleCounter == m.cycleCounter
    requires !m.tick ==> (e.runMode == next <==> Inc16(m.cycleCounter) > target)
    requires !m.tick && e.runMode == cur ==> e.cycleCounter == Inc16(m.cycleCounter)
    ensures CountedAfter(c, e, k + 1, target, cur, next)
  {
    var j := k / 2;
    if k % 2 == 0 {
      assert k == 2 * j && m.tick;
      assert (k + 1) / 2 == j && (k + 1) % 2 == 1;
      assert k + 1 < 2 * (target - c + 1);
    } else {
      assert k == 2 * j + 1 && !m.tick && m.cycleCounter == c + j;
      assert c + j < target + 1;
      assert Inc16(m.cycleCounter) == c + j + 1;
      assert (k + 1) / 2 == j + 1 && (k + 1) % 2 == 0;
    }
  }

  /** Counting to `Reach(target, c)` leaves a mode on the same tock as the
      source's test against `target`: the counter never drops below `c`. */
  lemma ReachStep(c: Int16, counter: int, target: int)
    requires c <= counter < 0x7FFF
    ensures Inc16(counter) > target <==> Inc16(counter) > Reach(target, c)
  {
  }

  // ---------------------------------------------------------------------------
  // SETTLING

  /** From SETTLING with counter `c`, the run stays in SETTLING, counting one cycle
      per tock, until the tock that takes the counter past `tgtSettle`, which enters
      SCALING: beat 2*(T - c + 1) from a tick, one beat earlier from a tock, where
      T is `Reach(tgtSettle, c)`. */
  lemma {:induction false} SettlingRun(s: State, ins: seq<Passage>)
    requires s.runMode == Settling && s.lastTime != 0
    requires s.cycleCounter < 0x7FFF && s.tgtSettle < 0x7FFF
    requires NonZeroTimes(ins)
    requires CyclePhase(s) + |ins| <= 2 * (Reach(s.tgtSettle, s.cycleCounter) - s.cycleCounter + 1)
    ensures Runnable(s, ins)
    ensures var e := Run(s, ins);
      && SameConfig(s, e) && e.lastTime == LastTime(s.lastTime, ins)
      && CountedAfter(s.cycleCounter, e, CyclePhase(s) + |ins|,
                      Reach(s.tgtSettle, s.cycleCounter), Settling, Scaling)
      && (e.runMode == Settling ==> e.peakScale == s.peakScale)
      && (e.runMode == Scaling ==> e.cycleCounter == 1 && e.peakScale == INITIAL_PEAK_SCALE)
  {
    if |ins| > 0 {
      var pre := ins[..|ins| - 1];
      var p := ins[|ins| - 1];
      NonZeroPrefix(ins, |ins| - 1);
      SettlingRun(s, pre);
      var m := Run(s, pre);
      SettlingBeat(m, p);
      ReachStep(s.cycleCounter, m.cycleCounter, s.tgtSettle);
      CountingStep(s.cycleCounter, m, Beat(m, p).state, CyclePhase(s) + |pre|,
                   Reach(s.tgtSettle, s.cycleCounter), Settling, Scaling);
    }
  }

  /** After `setRunMode(SETTLING)`, SETTLING lasts exactly `tgtSettle` tocks, or
      one if the target is below 1 (T = `Reach(tgtSettle, 1)`): 2*T beats on an
      object awaiting a tick and 2*T - 1 on one awaiting a tock, since the reset
      keeps the tick flag. Every earlier beat leaves it in SETTLING and the last
      one enters SCALING. */
  lemma SettlingLasts(s0: State, ins: seq<Passage>)
    requires s0.lastTime != 0 && s0.tgtSettle < 0x7FFF
    requires NonZeroTimes(ins) && |ins| == 2 * Reach(s0.tgtSettle, 1) - CyclePhase(s0)
    ensures var s := SetRunMode(s0, Code(Settling));
      && Runnable(s, ins) && Run(s, ins).runMode == Scaling
      && forall j :: 0 <= j < |ins| ==>
           Runnable(s, ins[..j]) && Run(s, ins[..j]).runMode == Settling
  {
    var s := SetRunMode(s0, Code(Settling));
    SettlingRun(s, ins);
    forall j | 0 <= j < |ins|
      ensures Runnable(s, ins[..j]) && Run(s, ins[..j]).runMode == Settling
    {
      NonZeroPrefix(ins, j);
      SettlingRun(s, ins[..j]);
    }
  }

  /** From power-on: the first passage only sets the time base and returns 0; the
      next 64 beats (32 cycles) are SETTLING, and the 64th enters SCALING. */
  lemma PowerOnSettles(unsetUspb: Int32, first: Passage, ins: seq<Passage>)
    requires first.t != 0 && NonZeroTimes(ins) && |ins| == 2 * DEFAULT_TGT_SETTLE
    ensures var r := Beat(Construct(unsetUspb), first);
      && r.uspb == 0 && r.state.runMode == Settling && CycleCounterReading(r.state) == 1
      && Runnable(r.state, ins) && Run(r.state, ins).runMode == Scaling
      && forall j :: 0 <= j < |ins| ==>
           Runnable(r.state, ins[..j]) && Run(r.state, ins[..j]).runMode == Settling
  {
    var s := Beat(Construct(unsetUspb), first).state;
    assert SetRunMode(s, Code(Settling)) == s;
    SettlingLasts(s, ins);
  }

  /** A settle target below 1 does not skip SETTLING: the first tock already
      takes the counter past it, so SETTLING lasts one cycle. From a tick, the
      first beat stays in SETTLING and the second enters SCALING. */
  lemma SettleTargetBelowOne(s0: State, a: Passage, b: Passage)
    requires s0.lastTime != 0 && s0.tgtSettle <= 0 && s0.tick && a.t != 0 && b.t != 0
    ensures var s := SetRunMode(s0, Code(Settling));
      && Runnable(s, [a]) && Run(s, [a]).runMode == Settling
      && Runnable(s, [a, b]) && Run(s, [a, b]).runMode == Scaling
  {
    var s := SetRunMode(s0, Code(Settling));
    SettlingLasts(s0, [a, b]);
    assert [a, b][..1] == [a];
  }

  // ---------------------------------------------------------------------------
  // SCALING

  /** From SCALING with counter `c`, the run stays in SCALING until the tock that
      takes the counter past `tgtScale` (beat 2*(T - c + 1) from a tick, one beat
      earlier from a tock, where T is `Reach(tgtScale, c)`), which enters CALIBRATING with fresh
      averages. The peak scale grows by one for each high peak and never falls. */
  lemma {:induction false} ScalingRun(s: State, ins: seq<Passage>)
    requires s.runMode == Scaling && s.lastTime != 0
    requires s.cycleCounter < 0x7FFF && s.tgtScale < 0x7FFF
    requires s.peakScale + |ins| < 0x7FFF
    requires NonZeroTimes(ins)
    requires CyclePhase(s) + |ins| <= 2 * (Reach(s.tgtScale, s.cycleCounter) - s.cycleCounter + 1)
    ensures Runnable(s, ins)
    ensures var e := Run(s, ins);
      && SameConfig(s, e) && e.lastTime == LastTime(s.lastTime, ins)
      && e.peakScale == s.peakScale + Highs(ins)
      && CountedAfter(s.cycleCounter, e, CyclePhase(s) + |ins|,
                      Reach(s.tgtScale, s.cycleCounter), Scaling, Calibrating)
      && (e.runMode == Calibrating ==> e.tickAvg == 0 && e.tockAvg == 0 && e.curSmoothing == 1)
  {
    if |ins| > 0 {
      var pre := ins[..|ins| - 1];
      var p := ins[|ins| - 1];
      NonZeroPrefix(ins, |ins| - 1);
      ScalingRun(s, pre);
      var m := Run(s, pre);
      ScalingBeat(m, p);
      assert Highs(ins) == Highs(pre) + (if p.peak > MAX_PEAK then 1 else 0);
      ReachStep(s.cycleCounter, m.cycleCounter, s.tgtScale);
      CountingStep(s.cycleCounter, m, Beat(m, p).state, CyclePhase(s) + |pre|,
                   Reach(s.tgtScale, s.cycleCounter), Scaling, Calibrating);
    }
  }

  /** After `setRunMode(SCALING)`, SCALING lasts exactly `tgtScale` tocks, or one
      if the target is below 1 (T = `Reach(tgtScale, 1)`): 2*T beats on an object
      awaiting a tick and 2*T - 1 on one awaiting a tock. It hands CALIBRATING a
      peak scale of 10 plus the number of high peaks seen. */
  lemma ScalingLasts(s0: State, ins: seq<Passage>)
    requires s0.lastTime != 0 && s0.tgtScale < 0x7FFF
    requires NonZeroTimes(ins) && |ins| == 2 * Reach(s0.tgtScale, 1) - CyclePhase(s0)
    requires INITIAL_PEAK_SCALE + |ins| < 0x7FFF
    ensures var s := SetRunMode(s0, Code(Scaling));
      && Runnable(s, ins)
      && Run(s, ins).runMode == Calibrating
      && Run(s, ins).peakScale == INITIAL_PEAK_SCALE + Highs(ins)
      && forall j :: 0 <= j < |ins| ==> Runnable(s, ins[..j]) && Run(s, ins[..j]).runMode == Scaling
  {
    var s := SetRunMode(s0, Code(Scaling));
    ScalingRun(s, ins);
    forall j | 0 <= j < |ins|
      ensures Runnable(s, ins[..j]) && Run(s, ins[..j]).runMode == Scaling
    {
      NonZeroPrefix(ins, j);
      ScalingRun(s, ins[..j]);
    }
  }

  // ---------------------------------------------------------------------------
  // CALIBRATING

  /** The corrected interval that ends at passage `i` of `ins`, the first one
      measured from `last`. */
  function Corrected(bias: Int16, last: UInt32, ins: seq<Passage>, i: int): Int32
    requires 0 <= i < |ins|
  {
    Measured(bias, USub32(ins[i].t, if i == 0 then last else ins[i - 1].t))
  }

  /** Passages, none stamped 0, whose corrected intervals all lie in `lo..hi`. */
  predicate IntervalsWithin(bias: Int16, last: UInt32, ins: seq<Passage>, lo: int, hi: int)
  {
    && NonZeroTimes(ins)
    && forall i :: 0 <= i < |ins| ==> lo <= Corrected(bias, last, ins, i) <= hi
  }

  lemma WithinPrefix(bias: Int16, last: UInt32, ins: seq<Passage>, lo: int, hi: int, j: nat)
    requires IntervalsWithin(bias, last, ins, lo, hi) && j <= |ins|
    ensures IntervalsWithin(bias, last, ins[..j], lo, hi)
  {
    NonZeroPrefix(ins, j);
    var pre := ins[..j];
    forall i | 0 <= i < j ensures lo <= Corrected(bias, last, pre, i) <= hi {
      assert pre[i] == ins[i];
      if i > 0 {
        assert pre[i - 1] == ins[i - 1];
      }
      assert Corrected(bias, last, pre, i) == Corrected(bias, last, ins, i);
    }
  }

  /** The last passage of a run is measured from the time stamp the run before it left. */
  lemma WithinLast(bias: Int16, last: UInt32, ins: seq<Passage>)
    requires |ins| > 0
    ensures Measured(bias, USub32(ins[|ins| - 1].t, LastTime(last, ins[..|ins| - 1])))
         == Corrected(bias, last, ins, |ins| - 1)
  {
    var i := |ins| - 1;
    if i > 0 {
      assert ins[..i][i - 1] == ins[i - 1];
    }
  }

  /** Steady passages have the same corrected interval everywhere. */
  lemma SteadyWithin(bias: Int16, last: UInt32, ins: seq<Passage>, raw: UInt32)
    requires Steady(last, ins, raw)
    ensures IntervalsWithin(bias, last, ins, Measured(bias, raw), Measured(bias, raw))
  {
    forall i | 0 <= i < |ins| ensures Corrected(bias, last, ins, i) == Measured(bias, raw) {
      if i > 0 {
        assert Gap(ins, i) == raw;
      }
    }
  }

  /** What `k` beats of a calibration leave behind when every corrected interval
      lies in `lo..hi`, for target `tgt`: both averages and the reported beat lie in
      `lo..hi` as soon as they exist, tick and tock alternate, the smoothing
      interval grows by one per cycle, and beat 2*Reach(tgt, 1) enters CALFINISH. */
  predicate CalibratedWithin(e: State, lo: int, hi: int, k: nat, tgt: int)
  {
    && (k == 0 ==> e.tickAvg == 0)
    && (k > 0 ==> lo <= e.tickAvg <= hi && lo <= e.uspb <= hi && e.tick == (k % 2 == 0))
    && (k < 2 ==> e.tockAvg == 0)
    && (k >= 2 ==> lo <= e.tockAvg <= hi)
    && (k < 2 * Reach(tgt, 1) ==> e.runMode == Calibrating && e.curSmoothing == 1 + k / 2)
    && (k == 2 * Reach(tgt, 1) ==> e.runMode == CalFinish)
  }

  /** The bookkeeping of one more CALIBRATING beat whose corrected interval `x`
      lies in `lo..hi`, from the effects of that beat alone. */
  lemma CalibrationArithmetic(m: State, e: State, x: int, lo: int, hi: int, k: nat)
    requires m.tgtSmoothing < 0x7FFF && k < 2 * Reach(m.tgtSmoothing, 1)
    requires 1 <= lo <= x <= hi <= 0x3FFF_FFFF
    requires m.runMode == Calibrating && m.curSmoothing != 0
    requires CalibratedWithin(m, lo, hi, k, m.tgtSmoothing)
    requires var asTick := m.tick || m.tickAvg == 0;
      && e.tick == !asTick
      && (asTick ==>
            && e.tickAvg == Smooth(m.tickAvg, x, m.curSmoothing)
            && e.tockAvg == m.tockAvg
            && e.curSmoothing == m.curSmoothing && e.runMode == Calibrating)
      && (!asTick ==>
            && e.tockAvg == Smooth(m.tockAvg, x, m.curSmoothing)
            && e.tickAvg == m.tickAvg
            && e.curSmoothing == Inc16(m.curSmoothing)
            && (e.runMode == CalFinish <==> Inc16(m.curSmoothing) > m.tgtSmoothing))
      && (e.runMode == Calibrating || e.runMode == CalFinish)
      && e.uspb == (if e.tockAvg == 0 then e.tickAvg else Mean(e.tickAvg, e.tockAvg))
    ensures CalibratedWithin(e, lo, hi, k + 1, m.tgtSmoothing)
  {
    var n: int := m.curSmoothing;
    var tgt: int := Reach(m.tgtSmoothing, 1);
    var j := k / 2;
    if k == 0 {
      assert e.tickAvg == Smooth(0, x, 1) == x;
      assert e.tockAvg == 0 && e.uspb == x && !e.tick;
      assert e.runMode == Calibrating && e.curSmoothing == 1;
    } else if k % 2 == 1 {
      assert k == 2 * j + 1 && n == 1 + j;
      assert !m.tick && lo <= m.tickAvg;
      assert Inc16(n) == n + 1;
      if k == 1 {
        assert e.tockAvg == Smooth(0, x, 1) == x;
      } else {
        assert lo <= m.tockAvg <= hi;
      }
      assert lo <= e.tockAvg <= hi;
      assert e.tickAvg == m.tickAvg;
      assert e.uspb == Mean(e.tickAvg, e.tockAvg);
      assert e.tick;
      assert e.curSmoothing == 2 + j;
      assert e.runMode == CalFinish <==> 2 + j > m.tgtSmoothing;
      assert 2 + j > m.tgtSmoothing <==> 2 + j > tgt;
      assert (k + 1) % 2 == 0 && (k + 1) / 2 == j + 1;
      assert k + 1 < 2 * tgt ==> e.runMode == Calibrating;
      assert k + 1 == 2 * tgt ==> e.runMode == CalFinish;
    } else {
      assert k == 2 * j && n == 1 + j;
      assert m.tick && lo <= m.tickAvg <= hi && lo <= m.tockAvg <= hi;
      assert lo <= e.tickAvg <= hi;
      assert e.tockAvg == m.tockAvg;
      assert e.uspb == Mean(e.tickAvg, e.tockAvg);
      assert !e.tick && e.runMode == Calibrating && e.curSmoothing == n;
      assert (k + 1) % 2 == 1 && (k + 1) / 2 == j;
      assert j < tgt;
      assert k + 1 < 2 * tgt;
    }
  }

  /** Calibrating from fresh averages on passages whose corrected intervals lie in
      `lo..hi`: the first beat is taken as a tick whatever the tick flag says, tick
      and tock then alternate, the smoothing interval grows by one per cycle, both
      averages stay in `lo..hi` once they exist, and beat 2*Reach(tgtSmoothing, 1)
      enters CALFINISH. Only the bounds of the intervals matter, not their values. */
  lemma {:induction false} CalibratingWithin(s: State, ins: seq<Passage>, lo: int, hi: int)
    requires s.runMode == Calibrating && s.lastTime != 0
    requires s.tickAvg == 0 && s.tockAvg == 0 && s.curSmoothing == 1
    requires s.tgtSmoothing < 0x7FFF
    requires 1 <= lo <= hi <= 0x3FFF_FFFF
    requires IntervalsWithin(s.bias, s.lastTime, ins, lo, hi)
    requires |ins| <= 2 * Reach(s.tgtSmoothing, 1)
    ensures Runnable(s, ins)
    ensures var e := Run(s, ins);
      && SameConfig(s, e) && e.lastTime == LastTime(s.lastTime, ins)
      && CalibratedWithin(e, lo, hi, |ins|, s.tgtSmoothing)
  {
    if |ins| > 0 {
      var pre := ins[..|ins| - 1];
      WithinPrefix(s.bias, s.lastTime, ins, lo, hi, |ins| - 1);
      CalibratingWithin(s, pre, lo, hi);
      WithinLast(s.bias, s.lastTime, ins);
      var m := Run(s, pre);
      var p := ins[|ins| - 1];
      var x := Corrected(s.bias, s.lastTime, ins, |ins| - 1);
      assert Interval(m, p.t) == x;
      CalibratingBeat(m, p);
      CalibrationArithmetic(m, Beat(m, p).state, x, lo, hi, |pre|);
    }
  }

  /** After `setRunMode(CALIBRATING)`, on passages whose corrected intervals lie in
      `lo..hi`, CALIBRATING lasts exactly `tgtSmoothing` cycles, or one if the target
      is below 1: every earlier beat leaves the object CALIBRATING, the last enters
      CALFINISH with both averages and the beat duration in `lo..hi`, and the beat
      after enters RUNNING reporting that duration. */
  lemma CalibrationCompletes(s0: State, ins: seq<Passage>, next: Passage, lo: int, hi: int)
    requires s0.lastTime != 0 && s0.tgtSmoothing < 0x7FFF
    requires 1 <= lo <= hi <= 0x3FFF_FFFF
    requires IntervalsWithin(s0.bias, s0.lastTime, ins, lo, hi)
    requires |ins| == 2 * Reach(s0.tgtSmoothing, 1)
    ensures var s := SetRunMode(s0, Code(Calibrating));
      && Runnable(s, ins)
      && var e := Run(s, ins);
      && e.runMode == CalFinish
      && lo <= e.uspb <= hi && lo <= e.tickAvg <= hi && lo <= e.tockAvg <= hi
      && Beat(e, next).state.runMode == Running
      && Beat(e, next).uspb == e.uspb
      && forall j :: 0 <= j < |ins| ==>
           Runnable(s, ins[..j]) && Run(s, ins[..j]).runMode == Calibrating
  {
    var s := SetRunMode(s0, Code(Calibrating));
    CalibratingWithin(s, ins, lo, hi);
    CalFinishBeat(Run(s, ins), next);
    forall j | 0 <= j < |ins|
      ensures Runnable(s, ins[..j]) && Run(s, ins[..j]).runMode == Calibrating
    {
      WithinPrefix(s.bias, s.lastTime, ins, lo, hi, j);
      CalibratingWithin(s, ins[..j], lo, hi);
    }
  }

  /** A perfectly steady resonator, passages exactly `raw` apart, is calibrated to
      its corrected beat `c` exactly: CALFINISH after 2*Reach(tgtSmoothing, 1)
      beats with both averages `c`, then RUNNING reporting `c`. */
  lemma SteadyCalibration(s0: State, ins: seq<Passage>, next: Passage, raw: UInt32)
    requires s0.lastTime != 0 && s0.tgtSmoothing < 0x7FFF
    requires 0 < raw <= 1_000_000_000 && SafeCorrection(s0.bias, raw)
    requires Steady(s0.lastTime, ins, raw) && |ins| == 2 * Reach(s0.tgtSmoothing, 1)
    ensures var s := SetRunMode(s0, Code(Calibrating)); var c := Measured(s0.bias, raw);
      && Runnable(s, ins)
      && Run(s, ins).runMode == CalFinish
      && Run(s, ins).uspb == c && Run(s, ins).tickAvg == c && Run(s, ins).tockAvg == c
      && Beat(Run(s, ins), next).state.runMode == Running
      && Beat(Run(s, ins), next).uspb == c
  {
    MeasuredPositive(s0.bias, raw);
    MeasuredBounded(s0.bias, raw);
    var c := Measured(s0.bias, raw);
    SteadyWithin(s0.bias, s0.lastTime, ins, raw);
    CalibrationCompletes(s0, ins, next, c, c);
  }

  // ---------------------------------------------------------------------------
  // RUNNING

  /** `e` differs from `s` at most in the tick flag and the time stamps. */
  predicate TimingOnly(s: State, e: State)
  {
    e.(tick := s.tick, lastTime := s.lastTime, timeBeforeLast := s.timeBeforeLast) == s
  }

  /** RUNNING never leaves RUNNING and never changes the beat duration, the
      averages, the counters or the peak scale, whatever the passages. When the
      object has a time base and no passage is stamped 0, every beat also flips
      the tick flag. */
  lemma {:induction false} RunningRun(s: State, ins: seq<Passage>)
    requires s.runMode == Running
    ensures Runnable(s, ins)
    ensures var e := Run(s, ins);
      && e.lastTime == LastTime(s.lastTime, ins)
      && TimingOnly(s, e)
      && (s.lastTime != 0 && NonZeroTimes(ins) ==>
            e.tick == (if |ins| % 2 == 0 then s.tick else !s.tick))
  {
    if |ins| > 0 {
      var pre := ins[..|ins| - 1];
      var p := ins[|ins| - 1];
      RunningRun(s, pre);
      var m := Run(s, pre);
      var e := Beat(m, p).state;
      if s.lastTime != 0 && NonZeroTimes(ins) {
        NonZeroPrefix(ins, |pre|);
        if |pre| > 0 {
          assert pre[|pre| - 1] == ins[|pre| - 1];
        }
        assert m.lastTime != 0;
        RunningBeat(m, p);
        RunningParity(s, m, e, |pre|);
      } else if m.lastTime != 0 {
        RunningBeat(m, p);
        assert e == m.(tick := !m.tick, timeBeforeLast := m.lastTime, lastTime := p.t);
      } else {
        assert e == m.(lastTime := p.t);
      }
    }
  }

  /** The bookkeeping of one more RUNNING beat, from its effect alone. */
  lemma RunningParity(s: State, m: State, e: State, k: nat)
    requires TimingOnly(s, m) && m.tick == (if k % 2 == 0 then s.tick else !s.tick)
    requires e.tick == !m.tick && TimingOnly(m, e)
    ensures TimingOnly(s, e) && e.tick == (if (k + 1) % 2 == 0 then s.tick else !s.tick)
  {
  }

  /** Running a resonator whose parameters are known: construct, `setRunMode(RUNNING)`,
      `setBeatDuration(1000000)`. The first passage returns 0 and sets the time
      base; the object stays RUNNING, and every later beat returns 1000000 except
      one that follows a passage stamped 0, which returns 0. */
  lemma KnownResonator(unsetUspb: Int32, first: Passage, ins: seq<Passage>)
    ensures var s := SetBeatDuration(SetRunMode(Construct(unsetUspb), Code(Running)), 1_000_000);
      var r := Beat(s, first);
      && r.uspb == 0
      && Runnable(r.state, ins)
      && forall j :: 0 <= j < |ins| ==>
           && Runnable(r.state, ins[..j])
           && Run(r.state, ins[..j]).runMode == Running
           && Beat(Run(r.state, ins[..j]), ins[j]).uspb
              == (if LastTime(first.t, ins[..j]) == 0 then 0 else 1_000_000)
  {
    var s := SetBeatDuration(SetRunMode(Construct(unsetUspb), Code(Running)), 1_000_000);
    var s1 := Beat(s, first).state;
    assert s1 == s.(lastTime := first.t);
    RunningRun(s1, ins);
    forall j | 0 <= j < |ins|
      ensures && Runnable(s1, ins[..j])
              && Run(s1, ins[..j]).runMode == Running
              && Beat(Run(s1, ins[..j]), ins[j]).uspb
                 == (if LastTime(first.t, ins[..j]) == 0 then 0 else 1_000_000)
    {
      RunningRun(s1, ins[..j]);
      var m := Run(s1, ins[..j]);
      if m.lastTime != 0 {
        RunningBeat(m, ins[j]);
      }
    }
  }

  // ---------------------------------------------------------------------------
  // cycle()

  /** `cycle()` is two consecutive beats: it leaves the object as they do and
      returns the sum of what they return, wrapped to a `long`. */
  lemma CycleIsTwoBeats(s: State, a: Passage, b: Passage)
    requires CanCycle(s, a)
    ensures Runnable(s, [a, b]) && Cycle(s, a, b).state == Run(s, [a, b])
    ensures CanBeat(Beat(s, a).state)
    ensures Cycle(s, a, b).uspb == Wrap32(Beat(s, a).uspb + Beat(Beat(s, a).state, b).uspb)
  {
    CycleDefined(s, a);
    var r1 := Beat(s, a);
    assert Cycle(s, a, b).uspb == Wrap32(r1.uspb + Beat(r1.state, b).uspb);
    assert [a, b][..1] == [a];
    assert [a][..0] == [];
    assert Runnable(s, [a]);
    assert Run(s, [a]) == Beat(s, a).state;
    assert Runnable(s, [a, b]);
    assert Run(s, [a, b]) == Beat(Beat(s, a).state, b).state;
  }
}
